=== FILE: README.md ===
# DPI Penguin launcher core in Dafny

DPI Penguin is a Windows GUI that starts one of several packet-filter
bypass profiles (`winws.exe`, `goodbyedpi.exe` with arguments), shows the
child's output, and stops it together with the `WinDivert` driver service.
Below its Qt and Windows plumbing sits a layer of decision logic. This
project models that layer as pure functions over immutable data. Every
fact the operating system, Qt or the configuration parser would report is
an input.

- `Wrappers` (`wrappers.dfy`): `Option` and `Result`.
- `Text` (`text.dfy`): ASCII lower-casing, substring containment (Python's
  `in`) with a positional reference definition, and case-insensitive equality.
- `Console` (`console.dfy`): the output-line classifier. It handles the
  start-up confirmation, the seven noise keywords and pass-through lines.
  It also models the 100-line console trim and `clear_console`.
- `ConfigValidation` (`config_validation.dfy`): `validate_config_file`.
  The file is given as existence and readability flags plus the parser's
  outcome. The parsed INI is a `[DEFAULT]` key set plus the sections in
  file order.
- `Controller` (`controller.dfy`): the window state record (profiles,
  configuration error, the single worker slot, the two buttons, the
  console) and the handlers `run_exe`, `is_executable_available`,
  `start_process`, `on_finished`, `stop_and_close`, `close_process` and
  `load_config_via_dialog`. Each handler returns the next state plus the
  side effects on threads and processes, in the order they are issued. A
  consistency invariant of the worker slot is proved over any sequence of
  events.
- `Startup` (`startup.dfy`): `is_admin`, `run_as_admin` (the relaunch
  parameter string and the exit status), `ensure_single_instance`, and the
  order of the gates in `main`, including the processes and service
  handed to the initializer.

Messages are the source's literal strings. The translation function is
taken as the identity.

Notable behaviour of the program that the model keeps:
- Starting a profile while a worker runs does not fail. The old worker is
  signalled, awaited and replaced (`Controller.StartProcess`).
- On a platform that is neither nt nor posix, `is_admin` returns false. On
  posix it is true only for effective uid 0. A non-nt, non-admin start
  therefore exits with status 1 (`Startup.Main`).
- The final sweep of the stop sequence matches only `winws.exe`, not
  `goodbyedpi.exe`.
- The sweep stops at the first exception: a denied or failed termination,
  or a process whose name is withheld, leaves every later match running
  (`Controller.CloseProcessStopsAtFirstRaise`).
- A finish event is acted on only when its name is a configured profile.
  So when the helper name `WinDivert` is not a profile, the helper stays
  in the slot until the next start replaces it.

## Model

| member | source | states |
|---|---|---|
| Text.ContainsIff | gui/gui.py:706-710 | the scanning `in` test used by the filter holds exactly when the keyword occurs at some position of the lower-cased line |
| Text.SameIgnoringCaseIff | gui/gui.py:767 | `name.lower() == target.lower()` holds exactly when both have the same length and agree character by character after lower-casing, so a name that merely contains the target never matches |
| Console.Trim | gui/gui.py:715-722 | removing the oldest line while more than 100 remain leaves exactly the newest min(n, 100) lines, in their original order |
| Console.UpdateOutput | gui/gui.py:695-722 | a line whose lower-case form contains the start-up confirmation appends only the fixed running notice, whatever noise it also carries; otherwise a line containing any of the seven noise keywords leaves the console exactly unchanged, untrimmed; otherwise the raw line is appended; after an append only the newest 100 lines remain |
| Console.UpdateOutputBounded | gui/gui.py:708-722 | whenever the console changes, it holds between 1 and 100 lines and its last line is the notice or the raw line |
| Console.ConfirmationOutranksNoise | gui/gui.py:708-711 | a line that is both noisy ("loaded") and the start-up confirmation yields the notice, because the confirmation is tested first |
| Console.ClassificationIgnoresCase | gui/gui.py:706-713 | two lines that differ only in letter case are both confirmations or both noise or neither; for a confirmation or a noisy line the resulting pane is the same, while a pass-through line is appended with its own casing |
| Console.ClearConsole | gui/gui.py:851-854 | clearing leaves an empty console, or exactly the one non-empty initial line |
| Console.PassThroughKeepsCasing | gui/gui.py:706-713 | `Ready` and `ready` are both appended as written, so case folding applies only to the tests and not to what is shown |
| Console.ClearedConsoleKeepsStartText | gui/gui.py:851-854 | after clearing with a non-empty start text, the next pass-through output line is appended below it: the pane is exactly those two lines |
| ConfigValidation.ProfileSections | gui/gui.py:930 | the profile sections are exactly the sections not named SCRIPT_OPTIONS |
| ConfigValidation.ProfileSectionsFilter | gui/gui.py:930 | the profile list is an order-preserving filter: it distributes over concatenation and keeps a single section exactly when it is not SCRIPT_OPTIONS |
| ConfigValidation.ConfigError.Message | gui/gui.py:906-940 | every failed check has its own message and none is empty, so the caller's `if validation_error:` test always fires on a failure |
| ConfigValidation.CheckProfiles | gui/gui.py:936-942 | no error exactly when every profile section has `executable` and `args`; otherwise the error names the first profile, in file order, that lacks a key, and within it the first missing key, `executable` before `args` |
| ConfigValidation.ValidateConfigFile | gui/gui.py:906-944 | the checks run in order: exists, readable, parses, SCRIPT_OPTIONS present, some other section, required keys; the first failure is reported, a file failing only the key check gets a missing-key error naming the first missing key, and None is returned exactly when all pass |
| Controller.MissingFiles | gui/gui.py:654 | the missing list holds exactly the required paths that do not exist |
| Controller.MissingFilesFilter | gui/gui.py:654 | the missing list is an order-preserving filter: it distributes over concatenation and keeps a single path exactly when it does not exist |
| Controller.IsExecutableAvailable | gui/gui.py:629-662 | available exactly when the executable exists, may be executed and, for the four guarded profiles, all four required files (`black` and three `zapret` files under the base folder, built by `RequiredFiles`) exist; each refusal carries the message of the first failing check |
| Controller.StartProcess | gui/gui.py:664-689 | the console is reset only for a non-empty start text; an existing worker is signalled and then awaited before the new one is spawned into the single slot; the buttons change only when run is to be disabled |
| Controller.RunExe | gui/gui.py:580-619 | a worker is spawned exactly when all pre-flight checks pass; a refusal appends exactly the first failing check's message (configuration error, unknown profile, or the executable check's message) and changes nothing else, with no side effect; on success the worker runs `[executable] + args` under the profile's name, its output is captured exactly when the profile is not one of the four guarded ones, the only effects are the old worker's signal and await followed by the spawn, run is disabled and stop enabled, and profiles and configuration error are kept |
| Controller.OnOutput | gui/gui.py:681-682 | output reaches the console only from a worker started with capture on, and then through the line filter |
| Controller.OnFinished | gui/gui.py:724-742 | a finish under a configured profile's name enables run, disables stop, appends the completion notice and empties the slot; any other name changes nothing |
| Controller.CloseProcess | gui/gui.py:764-780 | only processes whose whole name equals `winws.exe` ignoring case are terminated, and the console is only appended to; when no entry raises, one notice is appended per termination |
| Controller.CloseProcessClean | gui/gui.py:766-769 | when no entry raises, the terminated pids are exactly the matching pids in list order |
| Controller.CloseProcessStopsAtFirstRaise | gui/gui.py:765-780 | at the first entry that raises (name withheld, or a match whose termination fails), the terminated pids are exactly the matches before it, each with its notice, followed by the error line: none for a vanished process, the access-denied line, or the failure line with the reason |
| Controller.DeniedMatchEndsSweep | gui/gui.py:765-776 | a denied first `winws.exe` leaves a second `winws.exe` running and adds only the access-denied line |
| Controller.SweepMatchesWholeNames | gui/gui.py:766-768 | `WINWS.EXE` is terminated, `winws.exe.bak` is not |
| Controller.HaltEffects | gui/gui.py:747-755 | stopping a worker is a signal, then a 5000 ms wait, and only when that wait fails a forced terminate followed by an unbounded wait; with no worker nothing happens |
| Controller.StopAndClose | gui/gui.py:744-762 | after the stop sequence the slot holds the uncaptured WinDivert helper; the console is the old console after the `winws.exe` sweep; profiles, configuration error and buttons are unchanged |
| Controller.StopAndCloseOrder | gui/gui.py:744-768 | the effects run in three stages: halt the worker, spawn exactly one worker (the helper), then terminate processes matching `winws.exe`; a forced stop occurs exactly when a worker existed and its bounded wait failed |
| Controller.StopAndCloseEffects | gui/gui.py:747-762 | the stop sequence issues exactly the halting effects, then one spawn of the uncaptured WinDivert helper, then the sweep's terminations, and nothing else |
| Controller.StopAndCloseSweeps | gui/gui.py:757-768 | the stop sequence ends with one termination per pid the sweep killed, in order, and when no entry raises every listed `winws.exe` process is terminated |
| Controller.LoadConfigViaDialog | gui/gui.py:856-904 | a cancelled dialog changes nothing; otherwise the worker is stopped and awaited first, and with no worker no effect is issued; a validation failure or the loader's error message is appended and leaves profiles, configuration error and buttons unchanged; success replaces the profiles, clears the error, enables run and disables stop |
| Controller.HandlePreservesConsistency | gui/gui.py:580-742 | every handler keeps the slot consistent: it is empty, or holds a configured profile captured exactly when not guarded, or holds the uncaptured WinDivert helper |
| Controller.ReplayPreservesConsistency | gui/gui.py:580-904 | that consistency holds after any sequence of run, output, finish, stop and load events |
| Controller.CapturedFinishResets | gui/gui.py:725-742 | in a consistent window, the finish of the captured worker always empties the slot and re-enables run |
| Startup.IsAdmin | main.py:37-47 | on posix admin exactly when the effective uid is 0; on nt the shell's non-zero answer, false if asking raised; false on any other platform |
| Startup.QuoteArgs | main.py:60 | the parameter string is empty exactly when there are no arguments; its content is fixed for all inputs by the append lemma below |
| Startup.QuoteArgsSnoc | main.py:60 | for any arguments, quotes included, appending an argument appends one space and that argument between double quotes, with nothing escaped; with no earlier arguments it is just the quoted argument |
| Startup.QuoteArgsRoundTrip | main.py:57-60 | the relaunch parameter string, each argument in double quotes joined by single spaces, splits back into the original arguments at the quotes when none contains a quote |
| Startup.EmbeddedQuotesCollide | main.py:60 | embedded quotes are not escaped: `a" "b` and the pair `a`, `b` give the same parameter string |
| Startup.RunAsAdmin | main.py:50-67 | off nt it exits 1 without a request; on nt it requests `runas` of the interpreter with the quoted arguments (defaulting to the process's own) and exits 1 exactly when the shell returns 32 or less, else 0 |
| Startup.EnsureSingleInstance | main.py:70-79 | the instance must stop exactly when on nt the last error is ERROR_ALREADY_EXISTS; the handle cleanup is registered exactly when on nt it may go on |
| Startup.Main | main.py:89-108 | logging comes first; a non-admin start never reaches the instance check, any relaunch it requests is exactly `run_as_admin`'s with the default arguments, and it ends with the relaunch exit status; a second instance shows the already-running warning and ends with status 0; the window is created exactly when both gates pass, and the stop hook and the initializer only ever come after it |
| Startup.MainOrder | main.py:96-108 | when the window exists, the instance check preceded it, the stop hook and then the initializer follow, the initializer gets exactly `winws.exe`, `goodbyedpi.exe` and `WinDivert`, and nothing exits early |
| Startup.MainOnHostFacts | main.py:37-102 | in terms of the host's reports: the window is created exactly for root on posix or for a shell-confirmed nt administrator whose mutex did not already exist; the mutex cleanup is registered only in that nt case; a relaunch is requested only on nt; a refused start exits 1 exactly when off nt or the shell refused the relaunch |

## Left out

- Qt widgets, layout, theming, tray, dialogs and the info tab are left out: they are presentation. The file dialog is reduced to the chosen path, where an empty path means cancelled.
- Settings persistence (`settings.setValue`, last configuration and last profile) and the `auto_run` flag of `run_exe` are left out. They write ambient state that none of the modelled decisions read.
- The window constructor, auto-run at start-up, the updater, and blacklist and configuration downloads are left out. They are network code or initial set-up outside the launcher core.
- `workers/process_worker.py` is not part of this model. Worker threads are reduced to effects (`SignalStop` stands for `terminate_process()` followed by `quit()`). Their output streaming and their real start, wait and terminate are not modelled. The outcome of `wait(5000)` is an input. Events are handled one at a time; interleavings are not modelled, such as a replaced worker's queued output or finish arriving after the new start.
- `utils/utils.py` is not part of this model: `load_script_options`, `WIN_DIVERT_COMMAND` and `BASE_FOLDER` are inputs.
- The `except` branches of `run_exe` and `start_process` are left out. They guard the construction of the opaque worker thread.
- `psutil` enumeration, `os.path.exists`, `os.access`, ctypes and win32 calls and `configparser` are oracles given as sets, flags and values. Option names are taken as the parser stores them (already lower-cased).
- Text.Lower: lower-cases ASCII letters only, while Python's `str.lower` is Unicode-wide. All keywords, the confirmation text and the swept name are ASCII, so only non-ASCII letters in output lines or process names could differ.
- Console.UpdateOutput: one appended text is one console line. A child line containing a line break, which Qt would split into several blocks, is not modelled.
- Controller.PathJoin: joins with a single backslash and does not model `os.path.join`'s handling of a trailing separator or a drive in the base folder.
- Controller.CloseProcess: an exception raised by `psutil.process_iter` itself is not modelled. Only the per-process outcome (vanished, denied, other failure, or name withheld) is.
- Startup.EnsureSingleInstance: `CreateMutex` raising is not modelled; only the last-error value decides.
- Startup.IsAdmin: returns the truthiness of the shell's integer answer, not the integer itself; `main` uses only its truthiness.
- Logging and the rotating log file are left out as pure I/O. The `InitializerThread` body is not part of this model; only the arguments `main` passes to it are.
- Startup.QuoteArgsRoundTrip: the reader it inverts splits at the double quotes. It is not the Windows C-runtime argument parser the relaunched interpreter uses. Under that parser a backslash before a quote escapes it, so a quote-free argument ending in a backslash (`C:\dir\`) is misread and merges with the next argument. The lemma does not promise that the relaunched process sees the original arguments.

=== FILE: config_validation.dfy ===
/**
 * The pre-load check of a configuration file chosen by the user
 * (`validate_config_file`). The file-system facts and the INI parser's
 * outcome are inputs; the checks run in a fixed order and the first one
 * that fails names the error.
 */
module ConfigValidation {
  import opened Wrappers

  /** The marker section every configuration file must have. */
  const MarkerSection := "SCRIPT_OPTIONS"

  /** Keys every profile section must have, in the order they are checked. */
  const RequiredKeys: seq<string> := ["executable", "args"]

  /** One `[name]` section with the option names the parser stored for it. */
  datatype Section = Section(name: string, keys: set<string>)

  /**
   * A parsed INI file: the keys of its `[DEFAULT]` section, which every
   * section inherits, and its other sections in file order.
   */
  datatype Ini = Ini(defaults: set<string>, sections: seq<Section>)

  /** What the operating system and the parser report about the chosen path. */
  datatype ConfigFile = ConfigFile(path: string, present: bool, readable: bool, parsed: Result<Ini, string>)

  datatype ConfigError =
    | FileNotFound(path: string)
    | NotReadable(path: string)
    | Unparsable(reason: string)
    | NoMarkerSection
    | NoProfileSections
    | MissingKey(section: string, key: string)
  {
    /** The message shown to the user, one per check. */
    function Message(): (m: string)
      ensures m != ""
    {
      match this
      case FileNotFound(path) => "Файл не найден: " + path
      case NotReadable(path) => "Недостаточно прав для чтения файла: " + path
      case Unparsable(reason) => "Ошибка при чтении файла INI: " + reason
      case NoMarkerSection => "Ошибка: Отсутствует секция [SCRIPT_OPTIONS] в конфигурационном файле"
      case NoProfileSections => "Ошибка: В секции [SCRIPT_OPTIONS] отсутствуют настройки скриптов"
      case MissingKey(section, key) => "Ошибка: В секции [" + section + "] отсутствует ключ '" + key + "'"
    }
  }

  /** The sections other than the marker, in file order. */
  function ProfileSections(sections: seq<Section>): (r: seq<Section>)
    ensures |r| <= |sections|
    ensures forall s :: s in r <==> s in sections && s.name != MarkerSection
    decreases |sections|
  {
    if |sections| == 0 then []
    else if sections[0].name != MarkerSection then [sections[0]] + ProfileSections(sections[1..])
    else ProfileSections(sections[1..])
  }

  /**
   * `ProfileSections` is an order-preserving filter: it distributes over
   * concatenation and keeps a single section exactly when it is not the marker.
   */
  lemma {:induction false} ProfileSectionsFilter(a: seq<Section>, b: seq<Section>)
    ensures ProfileSections(a + b) == ProfileSections(a) + ProfileSections(b)
    ensures forall s :: ProfileSections([s]) == (if s.name != MarkerSection then [s] else [])
    decreases |a|
  {
    if |a| > 0 {
      assert (a + b)[1..] == a[1..] + b;
      ProfileSectionsFilter(a[1..], b);
    } else {
      assert a + b == b;
    }
    forall s: Section ensures ProfileSections([s]) == (if s.name != MarkerSection then [s] else []) {
      assert [s][1..] == [];
    }
  }

  /** `key in config[section]`: the section or `[DEFAULT]` defines the key. */
  predicate HasKey(ini: Ini, s: Section, key: string) {
    key in s.keys || key in ini.defaults
  }

  predicate HasRequiredKeys(ini: Ini, s: Section) {
    forall k :: 0 <= k < |RequiredKeys| ==> HasKey(ini, s, RequiredKeys[k])
  }

  /**
   * `key` of `profiles[i]` is the first missing required key when every
   * earlier profile is complete and every required key before `key` is present.
   */
  ghost predicate FirstMissing(ini: Ini, profiles: seq<Section>, section: string, key: string) {
    exists i, k ::
      && 0 <= i < |profiles| && 0 <= k < |RequiredKeys|
      && profiles[i].name == section && RequiredKeys[k] == key
      && !HasKey(ini, profiles[i], RequiredKeys[k])
      && (forall m :: 0 <= m < k ==> HasKey(ini, profiles[i], RequiredKeys[m]))
      && (forall j :: 0 <= j < i ==> HasRequiredKeys(ini, profiles[j]))
  }

  /** The first profile section (in order) missing a required key (checked in order), if any. */
  function CheckProfiles(ini: Ini, profiles: seq<Section>): (r: Option<ConfigError>)
    ensures r.None? <==> forall j :: 0 <= j < |profiles| ==> HasRequiredKeys(ini, profiles[j])
    ensures r.Some? ==> r.value.MissingKey? && FirstMissing(ini, profiles, r.value.section, r.value.key)
    decreases |profiles|
  {
    if |profiles| == 0 then None
    else if !HasKey(ini, profiles[0], RequiredKeys[0]) then Some(MissingKey(profiles[0].name, RequiredKeys[0]))
    else if !HasKey(ini, profiles[0], RequiredKeys[1]) then Some(MissingKey(profiles[0].name, RequiredKeys[1]))
    else
      var rest := CheckProfiles(ini, profiles[1..]);
      if rest.Some? then
        ShiftFirstMissing(ini, profiles, rest.value.section, rest.value.key);
        rest
      else
        rest
  }

  /** A first missing key of the tail is the first missing key of the whole when the head is complete. */
  lemma ShiftFirstMissing(ini: Ini, profiles: seq<Section>, section: string, key: string)
    requires |profiles| > 0 && HasRequiredKeys(ini, profiles[0])
    requires FirstMissing(ini, profiles[1..], section, key)
    ensures FirstMissing(ini, profiles, section, key)
  {
  }

  /** The file opened and parsed; the remaining checks look at its sections. */
  ghost predicate Parsed(f: ConfigFile) {
    f.present && f.readable && f.parsed.Success?
  }

  /** Some section is the marker section (names compare exactly). */
  predicate HasMarker(sections: seq<Section>) {
    exists i :: 0 <= i < |sections| && sections[i].name == MarkerSection
  }

  /** Every check passes. */
  ghost predicate Acceptable(f: ConfigFile) {
    && Parsed(f)
    && HasMarker(f.parsed.value.sections)
    && |ProfileSections(f.parsed.value.sections)| > 0
    && forall s :: s in ProfileSections(f.parsed.value.sections) ==> HasRequiredKeys(f.parsed.value, s)
  }

  /**
   * The checks, in order: the file exists, it is readable, it parses, it
   * has the marker section, it has at least one other section, and every
   * other section, in order, has `executable` and then `args`. The result
   * names the first failing check; it is `None` exactly when all pass.
   */
  function ValidateConfigFile(f: ConfigFile): (r: Option<ConfigError>)
    ensures r.None? <==> Acceptable(f)
    ensures !f.present ==> r == Some(FileNotFound(f.path))
    ensures f.present && !f.readable ==> r == Some(NotReadable(f.path))
    ensures f.present && f.readable && f.parsed.Failure? ==> r == Some(Unparsable(f.parsed.error))
    ensures Parsed(f) && !HasMarker(f.parsed.value.sections) ==> r == Some(NoMarkerSection)
    ensures Parsed(f) && HasMarker(f.parsed.value.sections) && |ProfileSections(f.parsed.value.sections)| == 0 ==>
              r == Some(NoProfileSections)
    ensures (Parsed(f) && HasMarker(f.parsed.value.sections) && |ProfileSections(f.parsed.value.sections)| > 0 &&
             !Acceptable(f)) ==> r.Some? && r.value.MissingKey?
    ensures r.Some? && r.value.MissingKey? ==>
              Parsed(f) && HasMarker(f.parsed.value.sections) &&
              FirstMissing(f.parsed.value, ProfileSections(f.parsed.value.sections), r.value.section, r.value.key)
  {
    if !f.present then Some(FileNotFound(f.path))
    else if !f.readable then Some(NotReadable(f.path))
    else if f.parsed.Failure? then Some(Unparsable(f.parsed.error))
    else
      var ini := f.parsed.value;
      if !HasMarker(ini.sections) then Some(NoMarkerSection)
      else
        var profiles := ProfileSections(ini.sections);
        if |profiles| == 0 then Some(NoProfileSections)
        else CheckProfiles(ini, profiles)
  }
}

=== FILE: console.dfy ===
/**
 * The console pane of the main window: how one output line of the
 * supervised child process is shown (`update_output`) and how the pane is
 * reset when a new run starts (`clear_console`).
 *
 * The pane is a sequence of lines, oldest first; one `append` adds one line.
 */
module Console {
  import opened Text

  /** The pane keeps at most this many lines after an output line was appended. */
  const MaxLines: nat := 100

  /** The driver's start-up confirmation, matched in lower case. */
  const StartMarker := "windivert initialized. capture is started."

  /** The fixed notice shown instead of the start-up confirmation ("your configuration is running"). */
  const RunningMessage := "Ваша конфигурация выполняется"

  /** Host-list and profile-loading chatter that is never shown. */
  const NoiseKeywords: seq<string> := [
    "loading hostlist",
    "we have",
    "desync profile(s)",
    "loaded hosts",
    "loading plain text list",
    "loaded",
    "loading ipset"
  ]

  function Min(a: int, b: int): int {
    if a <= b then a else b
  }

  /** `r` is what remains of `full` once only the newest `MaxLines` lines are kept, in their order. */
  ghost predicate KeepsNewest(r: seq<string>, full: seq<string>) {
    |r| == Min(|full|, MaxLines) && r == full[|full| - |r|..]
  }

  /** Drops the oldest line while the pane holds more than `MaxLines` lines. */
  function Trim(pane: seq<string>): (r: seq<string>)
    ensures KeepsNewest(r, pane)
    decreases |pane|
  {
    if |pane| > MaxLines then Trim(pane[1..]) else pane
  }

  /** The already lower-cased line contains at least one noise keyword as a substring. */
  predicate IsNoise(lowered: string) {
    exists k :: 0 <= k < |NoiseKeywords| && Contains(lowered, NoiseKeywords[k])
  }

  /** True when the line is the start-up confirmation, in any letter case. */
  predicate IsStartConfirmation(line: string) {
    Contains(Lower(line), StartMarker)
  }

  /**
   * One output line arrives. The start-up confirmation is checked first and
   * replaced by the fixed notice, whatever noise the line also contains;
   * otherwise a noisy line is dropped and the pane is left exactly as it was
   * (not even trimmed); otherwise the line is appended with its own casing.
   * After an append only the newest `MaxLines` lines remain, in order.
   */
  function UpdateOutput(pane: seq<string>, line: string): (r: seq<string>)
    ensures IsStartConfirmation(line) ==> KeepsNewest(r, pane + [RunningMessage])
    ensures !IsStartConfirmation(line) && IsNoise(Lower(line)) ==> r == pane
    ensures !IsStartConfirmation(line) && !IsNoise(Lower(line)) ==> KeepsNewest(r, pane + [line])
  {
    var lowered := Lower(line);
    if Contains(lowered, StartMarker) then Trim(pane + [RunningMessage])
    else if IsNoise(lowered) then pane
    else Trim(pane + [line])
  }

  /**
   * Whenever `UpdateOutput` changes the pane, the result holds at most
   * `MaxLines` lines and ends with the one line just appended.
   */
  lemma UpdateOutputBounded(pane: seq<string>, line: string)
    ensures var r := UpdateOutput(pane, line);
            r != pane ==> 0 < |r| <= MaxLines &&
                          r[|r| - 1] == (if IsStartConfirmation(line) then RunningMessage else line)
  {
  }

  /** A string without upper-case ASCII letters is its own lower-case form. */
  lemma LowerFixesLowercase(s: string)
    requires forall i :: 0 <= i < |s| ==> !('A' <= s[i] <= 'Z')
    ensures Lower(s) == s
  {
  }

  /**
   * A confirmation line that also carries noise ("loaded") still yields the
   * fixed notice, because the confirmation is checked first.
   */
  lemma ConfirmationOutranksNoise(pane: seq<string>)
    ensures var line := "loaded " + StartMarker;
            && IsNoise(Lower(line))
            && KeepsNewest(UpdateOutput(pane, line), pane + [RunningMessage])
  {
    var line := "loaded " + StartMarker;
    LowerFixesLowercase(line);
    assert NoiseKeywords[5] <= line;
    assert Contains(line, NoiseKeywords[5]);
    assert line[7..7 + |StartMarker|] == StartMarker;
    assert OccursAt(line, StartMarker, 7);
    ContainsIff(line, StartMarker);
  }

  /**
   * Two lines that differ only in letter case are classified alike, so a
   * confirmation or a noisy line has the same effect on the pane whatever
   * its casing; a pass-through line is appended with its own casing.
   */
  lemma ClassificationIgnoresCase(pane: seq<string>, a: string, b: string)
    requires SameIgnoringCase(a, b)
    ensures IsStartConfirmation(a) <==> IsStartConfirmation(b)
    ensures IsNoise(Lower(a)) <==> IsNoise(Lower(b))
    ensures IsStartConfirmation(a) || IsNoise(Lower(a)) ==> UpdateOutput(pane, a) == UpdateOutput(pane, b)
    ensures !IsStartConfirmation(a) && !IsNoise(Lower(a)) ==> KeepsNewest(UpdateOutput(pane, b), pane + [b])
  {
  }

  /** Casing matters for a pass-through line: `Ready` and `ready` leave different panes. */
  lemma PassThroughKeepsCasing()
    ensures UpdateOutput([], "Ready") == ["Ready"]
    ensures UpdateOutput([], "ready") == ["ready"]
  {
    assert Lower("Ready") == "ready";
    LowerFixesLowercase("ready");
    forall k | 0 <= k < |NoiseKeywords| ensures !Contains("ready", NoiseKeywords[k]) {
      ContainsIff("ready", NoiseKeywords[k]);
    }
    ContainsIff("ready", StartMarker);
  }

  /**
   * The pane is emptied and, when `initial` is non-empty (Python-truthy),
   * holds exactly that one line.
   */
  function ClearConsole(initial: string): (r: seq<string>)
    ensures |r| <= 1
    ensures r == [] <==> initial == ""
    ensures forall i :: 0 <= i < |r| ==> r[i] == initial
  {
    if initial != "" then [initial] else []
  }

  /**
   * A run that starts with a non-empty start text keeps it as the first
   * line: the next pass-through output line is appended below it.
   */
  lemma ClearedConsoleKeepsStartText(initial: string, line: string)
    requires initial != ""
    requires !IsStartConfirmation(line) && !IsNoise(Lower(line))
    ensures UpdateOutput(ClearConsole(initial), line) == [initial, line]
  {
  }
}

=== FILE: controller.dfy ===
/**
 * The main window's launch controller: starting a profile (`run_exe`,
 * `is_executable_available`, `start_process`), reacting to output and to a
 * worker's completion (`update_output`, `on_finished`), the stop sequence
 * (`stop_and_close`, `close_process`) and loading another configuration
 * file (`load_config_via_dialog`).
 *
 * Every handler is a pure function from the window state and the facts the
 * operating system would report to the next state plus the side effects on
 * worker threads and processes, in the order they are issued.
 */
module Controller {
  import opened Wrappers
  import opened Text
  import Console
  import opened ConfigValidation

  /** An argument vector: executable path first, then its arguments. */
  type Command = seq<string>

  /** Profile name to `(executable, args)`, as loaded from the configuration file. */
  type ScriptOptions = map<string, (string, seq<string>)>

  /** The single worker slot's occupant: its display name, its command and whether its output reaches the pane. */
  datatype Worker = Worker(name: string, command: Command, captured: bool)

  datatype App = App(
    scriptOptions: ScriptOptions,
    configError: Option<string>,
    worker: Option<Worker>,
    runEnabled: bool,
    stopEnabled: bool,
    console: seq<string>)

  /** Side effects on worker threads and OS processes. */
  datatype Effect =
    | SignalStop(name: string)                  // terminate_process() followed by quit()
    | Await(name: string)                       // wait() without a bound
    | AwaitFor(name: string, millis: nat)       // wait(millis)
    | ForceTerminate(name: string)              // QThread.terminate()
    | Spawn(worker: Worker)                     // a new worker thread is started
    | TerminatePid(pid: int)                    // psutil.Process(pid).terminate()

  datatype Step = Step(app: App, effects: seq<Effect>)

  /** Name of the helper worker that stops the packet-filter service. */
  const ServiceWorkerName := "WinDivert"

  /** Bound on the graceful wait in the stop sequence. */
  const ShutdownWaitMillis: nat := 5000

  /** Process name swept by the stop sequence. */
  const SweepTarget := "winws.exe"

  /** The four profiles that need extra files and whose output is not captured. */
  const GuardedProfiles: seq<string> := [
    "Обход блокировки YouTube",
    "Обход Discord + YouTube",
    "Обход блокировки Discord",
    "Обход блокировок для ЧС РКН"
  ]

  /** Path components, below the application folder, of the files the guarded profiles need. */
  const RequiredFileParts: seq<seq<string>> := [
    ["black"],
    ["zapret", "quic_initial_www_google_com.bin"],
    ["zapret", "tls_clienthello_www_google_com.bin"],
    ["zapret", "tls_clienthello_iana_org.bin"]
  ]

  const ConfigBrokenMessage := "Не удалось загрузить конфигурацию из-за ошибок"
  const FinishedMessage := "Обход блокировки завершен"
  const SweptMessage := "Обход остановлен"
  const LoadedMessage := "Конфигурация успешно загружена"

  /** Python truthiness of an optional string: `None` and `""` are both false. */
  predicate Truthy(s: Option<string>) {
    s.Some? && s.value != ""
  }

  /* ---------------- file-system facts ---------------- */

  /** What `os.path.exists` and `os.access(_, X_OK)` report, and the application folder. */
  datatype FileSystem = FileSystem(present: set<string>, runnable: set<string>, baseFolder: string)

  /** `os.path.join` with the Windows separator. */
  function PathJoin(base: string, parts: seq<string>): string
    decreases |parts|
  {
    if |parts| == 0 then base else PathJoin(base + "\\" + parts[0], parts[1..])
  }

  function RequiredFiles(base: string): (r: seq<string>)
    ensures |r| == |RequiredFileParts|
  {
    seq(|RequiredFileParts|, i requires 0 <= i < |RequiredFileParts| => PathJoin(base, RequiredFileParts[i]))
  }

  /** The paths of `paths` that do not exist, in order. */
  function MissingFiles(paths: seq<string>, present: set<string>): (r: seq<string>)
    ensures forall p :: p in r <==> p in paths && p !in present
    decreases |paths|
  {
    if |paths| == 0 then []
    else if paths[0] in present then MissingFiles(paths[1..], present)
    else [paths[0]] + MissingFiles(paths[1..], present)
  }

  /**
   * `MissingFiles` is an order-preserving filter: it distributes over
   * concatenation and keeps a single path exactly when it does not exist.
   */
  lemma {:induction false} MissingFilesFilter(a: seq<string>, b: seq<string>, present: set<string>)
    ensures MissingFiles(a + b, present) == MissingFiles(a, present) + MissingFiles(b, present)
    ensures forall p :: MissingFiles([p], present) == (if p in present then [] else [p])
    decreases |a|
  {
    if |a| > 0 {
      assert (a + b)[1..] == a[1..] + b;
      MissingFilesFilter(a[1..], b, present);
    } else {
      assert a + b == b;
    }
    forall p: string ensures MissingFiles([p], present) == (if p in present then [] else [p]) {
      assert [p][1..] == [];
    }
  }

  /** Python's `sep.join(items)`. */
  function Join(items: seq<string>, sep: string): string
    decreases |items|
  {
    if |items| == 0 then ""
    else if |items| == 1 then items[0]
    else items[0] + sep + Join(items[1..], sep)
  }

  function NotFoundMessage(exe: string): string {
    "Ошибка: файл " + exe + " не найден"
  }

  function NoPermissionMessage(exe: string): string {
    "Ошибка: Недостаточно прав для запуска " + exe
  }

  function MissingFilesMessage(missing: seq<string>): string {
    "Ошибка: не найдены файлы: " + Join(missing, ", ")
  }

  /** `str(option)` in the unknown-option message: `None` prints as "None". */
  function UnknownOptionMessage(selected: Option<string>): string {
    "Ошибка: неизвестный вариант скрипта " + selected.GetOr("None") + "."
  }

  function StartingMessage(option: string): string {
    "Установка: " + option + " запущена..."
  }

  /**
   * The pre-flight check of an executable: `None` when it may be started,
   * otherwise the message of the first failing check (missing, not
   * executable, or, for a guarded profile, required files missing).
   */
  function IsExecutableAvailable(fs: FileSystem, exe: string, option: string): (r: Option<string>)
    ensures r.None? <==>
              && exe in fs.present && exe in fs.runnable
              && (option in GuardedProfiles ==> forall p :: p in RequiredFiles(fs.baseFolder) ==> p in fs.present)
    ensures exe !in fs.present ==> r == Some(NotFoundMessage(exe))
    ensures exe in fs.present && exe !in fs.runnable ==> r == Some(NoPermissionMessage(exe))
    ensures exe in fs.present && exe in fs.runnable && r.Some? ==>
              option in GuardedProfiles &&
              r == Some(MissingFilesMessage(MissingFiles(RequiredFiles(fs.baseFolder), fs.present)))
  {
    if exe !in fs.present then Some(NotFoundMessage(exe))
    else if exe !in fs.runnable then Some(NoPermissionMessage(exe))
    else if option in GuardedProfiles then
      var missing := MissingFiles(RequiredFiles(fs.baseFolder), fs.present);
      if |missing| > 0 then
        assert missing[0] in missing;
        Some(MissingFilesMessage(missing))
      else None
    else None
  }

  /* ---------------- starting a worker ---------------- */

  /**
   * Puts a new worker into the single slot. The pane is first reset to
   * `clearText` when that is non-empty; an existing worker is signalled and
   * awaited before the new one is spawned (a start replaces, it never
   * refuses). With `disableRun` the run button goes off and stop goes on.
   */
  function StartProcess(app: App, command: Command, name: string, disableRun: bool, clearText: string, capture: bool): (r: Step)
    ensures r.app.worker == Some(Worker(name, command, capture))
    ensures app.worker.Some? ==>
              r.effects == [SignalStop(app.worker.value.name), Await(app.worker.value.name), Spawn(Worker(name, command, capture))]
    ensures app.worker.None? ==> r.effects == [Spawn(Worker(name, command, capture))]
    ensures r.app.console == (if clearText != "" then [clearText] else app.console)
    ensures disableRun ==> !r.app.runEnabled && r.app.stopEnabled
    ensures !disableRun ==> r.app.runEnabled == app.runEnabled && r.app.stopEnabled == app.stopEnabled
    ensures r.app.scriptOptions == app.scriptOptions && r.app.configError == app.configError
  {
    var pane := if clearText != "" then Console.ClearConsole(clearText) else app.console;
    var retire := if app.worker.Some? then [SignalStop(app.worker.value.name), Await(app.worker.value.name)] else [];
    var w := Worker(name, command, capture);
    Step(
      app.(console := pane,
           worker := Some(w),
           runEnabled := if disableRun then false else app.runEnabled,
           stopEnabled := if disableRun then true else app.stopEnabled),
      retire + [Spawn(w)])
  }

  /** Some effect of the list starts a worker. */
  predicate Spawns(effects: seq<Effect>) {
    exists i :: 0 <= i < |effects| && effects[i].Spawn?
  }

  /** Every pre-flight check of `run_exe` passes for `selected`. */
  ghost predicate Launchable(app: App, selected: Option<string>, fs: FileSystem) {
    && !Truthy(app.configError)
    && selected.Some? && selected.value in app.scriptOptions
    && var exe := app.scriptOptions[selected.value].0;
       && exe in fs.present && exe in fs.runnable
       && (selected.value in GuardedProfiles ==> forall p :: p in RequiredFiles(fs.baseFolder) ==> p in fs.present)
  }

  /** The run button: refuse with one message before any side effect, or start the selected profile. */
  function RunExe(app: App, selected: Option<string>, fs: FileSystem): (r: Step)
    ensures Spawns(r.effects) <==> Launchable(app, selected, fs)
    ensures !Launchable(app, selected, fs) ==>
              r.effects == [] && |r.app.console| == |app.console| + 1 && r.app == app.(console := r.app.console)
    ensures Truthy(app.configError) ==> r.app.console == app.console + [ConfigBrokenMessage]
    ensures !Truthy(app.configError) && (selected.None? || selected.value !in app.scriptOptions) ==>
              r.app.console == app.console + [UnknownOptionMessage(selected)]
    ensures Launchable(app, selected, fs) ==>
              var option := selected.value;
              var (exe, args) := app.scriptOptions[option];
              var w := Worker(option, [exe] + args, option !in GuardedProfiles);
              && r.app.worker == Some(w)
              && r.effects[|r.effects| - 1] == Spawn(w)
              && (app.worker.Some? ==> |r.effects| == 3 && r.effects[..2] == [SignalStop(app.worker.value.name), Await(app.worker.value.name)])
              && !r.app.runEnabled && r.app.stopEnabled
              && r.app.console == [StartingMessage(option)]
              && r.app.scriptOptions == app.scriptOptions && r.app.configError == app.configError
              && (app.worker.None? ==> r.effects == [Spawn(w)])
    ensures !Truthy(app.configError) && selected.Some? && selected.value in app.scriptOptions &&
            !Launchable(app, selected, fs) ==>
              r.app.console == app.console + [IsExecutableAvailable(fs, app.scriptOptions[selected.value].0, selected.value).value]
  {
    if Truthy(app.configError) then
      Step(app.(console := app.console + [ConfigBrokenMessage]), [])
    else if selected.None? || selected.value !in app.scriptOptions then
      Step(app.(console := app.console + [UnknownOptionMessage(selected)]), [])
    else
      var option := selected.value;
      var (exe, args) := app.scriptOptions[option];
      match IsExecutableAvailable(fs, exe, option)
      case Some(problem) => Step(app.(console := app.console + [problem]), [])
      case None =>
        var capture := option !in GuardedProfiles;
        var started := StartProcess(app, [exe] + args, option, true, StartingMessage(option), capture);
        assert started.effects[|started.effects| - 1].Spawn?;
        started
  }

  /* ---------------- events from the worker ---------------- */

  /** An output line of the current worker; only a captured worker's output is wired to the pane. */
  function OnOutput(app: App, line: string): (r: App)
    ensures r.console != app.console ==> app.worker.Some? && app.worker.value.captured
    ensures app.worker.Some? && app.worker.value.captured ==> r.console == Console.UpdateOutput(app.console, line)
    ensures r == app.(console := r.console)
  {
    if app.worker.Some? && app.worker.value.captured then app.(console := Console.UpdateOutput(app.console, line))
    else app
  }

  /**
   * A worker reports completion under `name`. Only the name of a configured
   * profile re-enables run, disables stop, appends the completion notice and
   * empties the slot; any other name (the service helper) changes nothing.
   */
  function OnFinished(app: App, name: string): (r: App)
    ensures name !in app.scriptOptions <==> r == app
    ensures name in app.scriptOptions ==>
              && r.worker.None? && r.runEnabled && !r.stopEnabled
              && r.console == app.console + [FinishedMessage]
              && r.scriptOptions == app.scriptOptions && r.configError == app.configError
  {
    if name in app.scriptOptions then
      app.(runEnabled := true, stopEnabled := false, console := app.console + [FinishedMessage], worker := None)
    else app
  }

  /* ---------------- the stop sequence ---------------- */

  /** How terminating one listed process turns out. */
  datatype TerminateOutcome = Terminated | NoSuchProcess | AccessDenied | Failed(reason: string)

  /** One entry of the OS process list; `name` is `None` when the OS withholds it. */
  datatype Process = Process(pid: int, name: Option<string>, outcome: TerminateOutcome)

  /** The pane after a sweep and the pids terminated, in list order. */
  datatype Sweep = Sweep(console: seq<string>, killed: seq<int>)

  predicate Matches(p: Process, target: string) {
    p.name.Some? && SameIgnoringCase(p.name.value, target)
  }

  /** Visiting this entry raises: its name is withheld, or it matches and terminating it fails. */
  predicate Raises(p: Process, target: string) {
    p.name.None? || (Matches(p, target) && p.outcome != Terminated)
  }

  /** No entry makes the sweep stop early. */
  ghost predicate SweepsCleanly(procs: seq<Process>, target: string) {
    forall i :: 0 <= i < |procs| ==> !Raises(procs[i], target)
  }

  /** Entry `i` is the first one whose visit raises. */
  ghost predicate FirstRaise(procs: seq<Process>, target: string, i: int) {
    && 0 <= i < |procs|
    && Raises(procs[i], target)
    && forall j :: 0 <= j < i ==> !Raises(procs[j], target)
  }

  /** Reference definition: the pids of the entries named `target` ignoring case, in list order. */
  function MatchingPids(procs: seq<Process>, target: string): (r: seq<int>)
    ensures forall pid :: pid in r <==>
              exists j :: 0 <= j < |procs| && Matches(procs[j], target) && procs[j].pid == pid
    decreases |procs|
  {
    if |procs| == 0 then []
    else
      var rest := MatchingPids(procs[1..], target);
      assert forall j :: 0 <= j < |procs[1..]| ==> procs[1..][j] == procs[j + 1];
      (if Matches(procs[0], target) then [procs[0].pid] else []) + rest
  }

  function Repeat(line: string, n: nat): (r: seq<string>)
    ensures |r| == n && forall i :: 0 <= i < n ==> r[i] == line
  {
    seq(n, _ => line)
  }

  function AccessDeniedMessage(display: string): string {
    "Ошибка: Недостаточно прав для завершения процесса " + display
  }

  function SweepFailedMessage(display: string, reason: string): string {
    "Ошибка завершения процесса " + display + ": " + reason
  }

  /** `str(e)` for the `AttributeError` raised by `None.lower()`. */
  const NoNameReason := "'NoneType' object has no attribute 'lower'"

  /**
   * The console lines added when visiting `p` raises: none for a vanished
   * process (it is only logged), one error line otherwise.
   */
  function RaiseLines(p: Process, target: string): seq<string> {
    if p.name.None? then [SweepFailedMessage(target, NoNameReason)]
    else match p.outcome
      case AccessDenied => [AccessDeniedMessage(target)]
      case Failed(reason) => [SweepFailedMessage(target, reason)]
      case _ => []
  }

  /**
   * `close_process`: walks the process list and terminates every process
   * whose name equals `target` ignoring case (whole names, not substrings),
   * appending one notice per termination. The whole walk sits in one `try`,
   * so the first exception ends it: matches before it are terminated, later
   * ones are left running.
   */
  function CloseProcess(pane: seq<string>, procs: seq<Process>, target: string): (r: Sweep)
    ensures |pane| <= |r.console| && r.console[..|pane|] == pane
    ensures forall pid :: pid in r.killed ==>
              exists i :: 0 <= i < |procs| && procs[i].pid == pid && Matches(procs[i], target)
    ensures SweepsCleanly(procs, target) ==> r.console == pane + Repeat(SweptMessage, |r.killed|)
    decreases |procs|
  {
    if |procs| == 0 then Sweep(pane, [])
    else
      var p := procs[0];
      if Raises(p, target) then Sweep(pane + RaiseLines(p, target), [])
      else
        var extra := if Matches(p, target) then [SweptMessage] else [];
        var rest := CloseProcess(pane + extra, procs[1..], target);
        var killed := (if Matches(p, target) then [p.pid] else []) + rest.killed;
        assert forall i :: 0 <= i < |procs[1..]| ==> procs[1..][i] == procs[i + 1];
        RepeatCons(SweptMessage, |rest.killed|);
        Sweep(rest.console, killed)
  }

  /** The head is visited first: stepping past a non-raising head is a sweep of the tail. */
  lemma CloseProcessStep(pane: seq<string>, procs: seq<Process>, target: string)
    requires |procs| > 0 && !Raises(procs[0], target)
    ensures var extra := if Matches(procs[0], target) then [SweptMessage] else [];
            var rest := CloseProcess(pane + extra, procs[1..], target);
            CloseProcess(pane, procs, target) ==
              Sweep(rest.console, (if Matches(procs[0], target) then [procs[0].pid] else []) + rest.killed)
  {
  }

  /** A sweep in which nothing raises terminates every match, in list order. */
  lemma {:induction false} CloseProcessClean(pane: seq<string>, procs: seq<Process>, target: string)
    requires SweepsCleanly(procs, target)
    ensures CloseProcess(pane, procs, target).killed == MatchingPids(procs, target)
    decreases |procs|
  {
    if |procs| > 0 {
      assert forall i :: 0 <= i < |procs[1..]| ==> procs[1..][i] == procs[i + 1];
      var extra := if Matches(procs[0], target) then [SweptMessage] else [];
      CloseProcessClean(pane + extra, procs[1..], target);
      CloseProcessStep(pane, procs, target);
    }
  }

  /**
   * The first raising entry ends the sweep: exactly the matches before it
   * are terminated, each with its notice, followed by that entry's error line.
   */
  lemma {:induction false} CloseProcessStopsAtFirstRaise(pane: seq<string>, procs: seq<Process>, target: string, i: int)
    requires FirstRaise(procs, target, i)
    ensures var r := CloseProcess(pane, procs, target);
            && r.killed == MatchingPids(procs[..i], target)
            && r.console == pane + Repeat(SweptMessage, |r.killed|) + RaiseLines(procs[i], target)
    decreases i
  {
    if i == 0 {
      assert procs[..0] == [];
    } else {
      assert !Raises(procs[0], target);
      assert forall j :: 0 <= j < |procs[1..]| ==> procs[1..][j] == procs[j + 1];
      assert FirstRaise(procs[1..], target, i - 1);
      var extra := if Matches(procs[0], target) then [SweptMessage] else [];
      CloseProcessStopsAtFirstRaise(pane + extra, procs[1..], target, i - 1);
      CloseProcessStep(pane, procs, target);
      var rest := CloseProcess(pane + extra, procs[1..], target);
      assert procs[..i][1..] == procs[1..][..i - 1];
      assert procs[..i][0] == procs[0];
      RepeatCons(SweptMessage, |rest.killed|);
    }
  }

  lemma RepeatCons(line: string, n: nat)
    ensures [line] + Repeat(line, n) == Repeat(line, n + 1)
  {
  }

  /**
   * A denied termination ends the sweep: a later process with the same name
   * is left running and only the error line is added.
   */
  lemma DeniedMatchEndsSweep()
    ensures CloseProcess([], [Process(1, Some("winws.exe"), AccessDenied), Process(2, Some("winws.exe"), Terminated)],
                         SweepTarget) == Sweep([AccessDeniedMessage(SweepTarget)], [])
  {
    assert SameIgnoringCase("winws.exe", SweepTarget);
  }

  /**
   * The sweep compares whole names ignoring case: an upper-case `WINWS.EXE`
   * is terminated, a longer name that merely contains `winws.exe` is not.
   */
  lemma SweepMatchesWholeNames()
    ensures CloseProcess([], [Process(7, Some("WINWS.EXE"), Terminated), Process(8, Some("winws.exe.bak"), Terminated)],
                         SweepTarget).killed == [7]
  {
    assert SameIgnoringCase("WINWS.EXE", SweepTarget);
    SameIgnoringCaseIff("winws.exe.bak", SweepTarget);
  }

  /** Which stage of the stop sequence an effect belongs to. */
  function Stage(e: Effect): nat {
    match e
    case Spawn(_) => 1
    case TerminatePid(_) => 2
    case _ => 0
  }

  /** Step (1) of the stop sequence: graceful signal, bounded wait, and only if that fails a forced stop. */
  function HaltEffects(w: Option<Worker>, waitOk: bool): (e: seq<Effect>)
    ensures forall k :: 0 <= k < |e| ==> Stage(e[k]) == 0
    ensures w.None? <==> e == []
    ensures w.Some? ==> |e| >= 2 && e[0] == SignalStop(w.value.name) && e[1] == AwaitFor(w.value.name, ShutdownWaitMillis)
    ensures (exists k :: 0 <= k < |e| && e[k].ForceTerminate?) <==> w.Some? && !waitOk
    ensures w.Some? && waitOk ==> |e| == 2
    ensures w.Some? && !waitOk ==> e[2..] == [ForceTerminate(w.value.name), Await(w.value.name)]
  {
    if w.None? then []
    else
      var n := w.value.name;
      var e := [SignalStop(n), AwaitFor(n, ShutdownWaitMillis)] + (if waitOk then [] else [ForceTerminate(n), Await(n)]);
      assert !waitOk ==> e[2].ForceTerminate?;
      e
  }

  /**
   * The effects of the stop sequence, halting effects then one spawn then
   * terminations, are ordered by stage, spawn only that one worker, force a
   * stop only where the halting part does, and terminate only listed pids.
   */
  lemma ShutdownShape(halt: seq<Effect>, spawn: Effect, kills: seq<Effect>)
    requires forall k :: 0 <= k < |halt| ==> Stage(halt[k]) == 0
    requires spawn.Spawn?
    requires forall k :: 0 <= k < |kills| ==> kills[k].TerminatePid?
    ensures var e := halt + [spawn] + kills;
            && (forall i, j :: 0 <= i < j < |e| ==> Stage(e[i]) <= Stage(e[j]))
            && e[|halt|] == spawn
            && (forall k :: 0 <= k < |e| && e[k].Spawn? ==> e[k] == spawn && k == |halt|)
            && ((exists k :: 0 <= k < |e| && e[k].ForceTerminate?) <==>
                (exists k :: 0 <= k < |halt| && halt[k].ForceTerminate?))
            && (forall k :: 0 <= k < |e| && e[k].TerminatePid? ==> e[k] in kills)
            && (forall k :: 0 <= k < |halt| ==> e[k] == halt[k])
  {
    var e := halt + [spawn] + kills;
    assert forall k :: 0 <= k < |e| ==>
             e[k] == (if k < |halt| then halt[k] else if k == |halt| then spawn else kills[k - |halt| - 1]);
  }

  /** The terminations issued by a sweep, in the order of its pids. */
  function KillEffects(killed: seq<int>): (e: seq<Effect>)
    ensures |e| == |killed|
    ensures forall k :: 0 <= k < |e| ==> e[k] == TerminatePid(killed[k])
  {
    seq(|killed|, i requires 0 <= i < |killed| => TerminatePid(killed[i]))
  }

  /**
   * `stop_and_close`: (1) stop any worker, waiting at most five seconds and
   * forcing termination only when that wait fails, then empty the slot;
   * (2) start the uncaptured service helper with `serviceCommand`;
   * (3) sweep the process list for `winws.exe`. `waitOk` is what the
   * bounded wait reports. The order of the effects is stated by
   * `StopAndCloseOrder`.
   */
  function StopAndClose(app: App, waitOk: bool, serviceCommand: Command, procs: seq<Process>): (r: Step)
    ensures r.app.worker == Some(Worker(ServiceWorkerName, serviceCommand, false))
    ensures |app.console| <= |r.app.console| && r.app.console[..|app.console|] == app.console
    ensures r.app.console == CloseProcess(app.console, procs, SweepTarget).console
    ensures r.app.scriptOptions == app.scriptOptions && r.app.configError == app.configError
    ensures r.app.runEnabled == app.runEnabled && r.app.stopEnabled == app.stopEnabled
  {
    var halt := HaltEffects(app.worker, waitOk);
    var started := StartProcess(app.(worker := None), serviceCommand, ServiceWorkerName, false, "", false);
    var sweep := CloseProcess(started.app.console, procs, SweepTarget);
    Step(started.app.(console := sweep.console), halt + started.effects + KillEffects(sweep.killed))
  }

  /**
   * The stop sequence's effects run in three stages: halting the worker
   * (signal, then the five-second wait, then a forced stop only when that
   * wait failed), then exactly one spawn, of the service helper, then
   * terminations of listed processes named `winws.exe` ignoring case.
   */
  lemma StopAndCloseOrder(app: App, waitOk: bool, serviceCommand: Command, procs: seq<Process>)
    ensures var e := StopAndClose(app, waitOk, serviceCommand, procs).effects;
            var helper := Spawn(Worker(ServiceWorkerName, serviceCommand, false));
            && (forall i, j :: 0 <= i < j < |e| ==> Stage(e[i]) <= Stage(e[j]))
            && (exists k :: 0 <= k < |e| && e[k] == helper)
            && (forall k :: 0 <= k < |e| && e[k].Spawn? ==> e[k] == helper)
            && (forall i, j :: 0 <= i < j < |e| && e[i].Spawn? ==> !e[j].Spawn?)
            && (app.worker.Some? ==>
                  e[0] == SignalStop(app.worker.value.name) && e[1] == AwaitFor(app.worker.value.name, ShutdownWaitMillis))
            && (app.worker.None? ==> e[0] == helper)
            && ((exists k :: 0 <= k < |e| && e[k].ForceTerminate?) <==> app.worker.Some? && !waitOk)
            && (forall k :: 0 <= k < |e| && e[k].TerminatePid? ==>
                  exists i :: 0 <= i < |procs| && procs[i].pid == e[k].pid && Matches(procs[i], SweepTarget))
  {
    var halt := HaltEffects(app.worker, waitOk);
    var started := StartProcess(app.(worker := None), serviceCommand, ServiceWorkerName, false, "", false);
    var sweep := CloseProcess(started.app.console, procs, SweepTarget);
    var kills := KillEffects(sweep.killed);
    assert forall e :: e in kills ==> e.TerminatePid? && e.pid in sweep.killed;
    ShutdownShape(halt, Spawn(Worker(ServiceWorkerName, serviceCommand, false)), kills);
  }

  /**
   * The stop sequence ends with the sweep's terminations, one per pid the
   * sweep of the console killed, in order; when no entry raises, every
   * listed `winws.exe` process is terminated.
   */
  lemma StopAndCloseSweeps(app: App, waitOk: bool, serviceCommand: Command, procs: seq<Process>)
    ensures var e := StopAndClose(app, waitOk, serviceCommand, procs).effects;
            var killed := CloseProcess(app.console, procs, SweepTarget).killed;
            && |killed| <= |e| && e[|e| - |killed|..] == KillEffects(killed)
            && (SweepsCleanly(procs, SweepTarget) ==>
                  forall i :: 0 <= i < |procs| && Matches(procs[i], SweepTarget) ==> TerminatePid(procs[i].pid) in e)
  {
    var started := StartProcess(app.(worker := None), serviceCommand, ServiceWorkerName, false, "", false);
    var prefix := HaltEffects(app.worker, waitOk) + started.effects;
    var killed := CloseProcess(app.console, procs, SweepTarget).killed;
    EndsWithKills(prefix, killed);
    if SweepsCleanly(procs, SweepTarget) {
      CloseProcessClean(app.console, procs, SweepTarget);
    }
  }

  /** Effects that end with a sweep's terminations contain one per killed pid. */
  lemma EndsWithKills(prefix: seq<Effect>, killed: seq<int>)
    ensures var e := prefix + KillEffects(killed);
            && |killed| <= |e| && e[|e| - |killed|..] == KillEffects(killed)
            && forall pid :: pid in killed ==> TerminatePid(pid) in e
  {
    var e := prefix + KillEffects(killed);
    assert e[|e| - |killed|..] == KillEffects(killed);
    forall pid | pid in killed ensures TerminatePid(pid) in e {
      var m :| 0 <= m < |killed| && killed[m] == pid;
      assert e[|prefix| + m] == TerminatePid(pid);
    }
  }

  /**
   * The stop sequence issues exactly the halting effects, then one spawn of
   * the service helper, then the sweep's terminations, and nothing else.
   */
  lemma StopAndCloseEffects(app: App, waitOk: bool, serviceCommand: Command, procs: seq<Process>)
    ensures StopAndClose(app, waitOk, serviceCommand, procs).effects ==
              HaltEffects(app.worker, waitOk) + [Spawn(Worker(ServiceWorkerName, serviceCommand, false))] +
              KillEffects(CloseProcess(app.console, procs, SweepTarget).killed)
  {
  }

  /* ---------------- loading another configuration ---------------- */

  /**
   * `load_config_via_dialog`. An empty `file.path` is a cancelled dialog
   * and changes nothing. Otherwise any worker is stopped and awaited first;
   * then a validation failure, or an error from the loader (`loaded`, what
   * the configuration loader returns), appends the message and leaves the
   * profiles and the configuration error as they were. On success the
   * profiles are replaced, the error cleared, run enabled and stop disabled.
   */
  function LoadConfigViaDialog(app: App, file: ConfigFile, loaded: (ScriptOptions, Option<string>)): (r: Step)
    ensures file.path == "" ==> r == Step(app, [])
    ensures file.path != "" ==> r.app.worker.None?
    ensures file.path != "" && app.worker.Some? ==>
              r.effects == [SignalStop(app.worker.value.name), Await(app.worker.value.name)]
    ensures !Spawns(r.effects)
    ensures file.path != "" && (!Acceptable(file) || Truthy(loaded.1)) ==>
              && r.app.scriptOptions == app.scriptOptions && r.app.configError == app.configError
              && r.app.runEnabled == app.runEnabled && r.app.stopEnabled == app.stopEnabled
              && |r.app.console| == |app.console| + 1
    ensures file.path != "" && !Acceptable(file) ==>
              r.app.console == app.console + [ValidateConfigFile(file).value.Message()]
    ensures file.path != "" && Acceptable(file) && Truthy(loaded.1) ==>
              r.app.console == app.console + [loaded.1.value]
    ensures app.worker.None? ==> r.effects == []
    ensures file.path != "" && Acceptable(file) && !Truthy(loaded.1) ==>
              && r.app.scriptOptions == loaded.0 && r.app.configError.None?
              && r.app.runEnabled && !r.app.stopEnabled
              && r.app.console == app.console + [LoadedMessage]
  {
    if file.path == "" then Step(app, [])
    else
      var retire := if app.worker.Some? then [SignalStop(app.worker.value.name), Await(app.worker.value.name)] else [];
      var idle := app.(worker := None);
      match ValidateConfigFile(file)
      case Some(e) => Step(idle.(console := idle.console + [e.Message()]), retire)
      case None =>
        var (options, error) := loaded;
        if Truthy(error) then Step(idle.(console := idle.console + [error.value]), retire)
        else
          Step(idle.(scriptOptions := options, configError := None, console := idle.console + [LoadedMessage],
                     runEnabled := true, stopEnabled := false),
               retire)
  }

  /* ---------------- the window as a whole ---------------- */

  /**
   * The slot holds either a configured profile's worker, captured exactly
   * when the profile is not guarded, or the uncaptured service helper.
   */
  ghost predicate Consistent(app: App) {
    app.worker.Some? ==>
      var w := app.worker.value;
      || (w.name in app.scriptOptions && (w.captured <==> w.name !in GuardedProfiles))
      || (w.name == ServiceWorkerName && !w.captured)
  }

  /** What can happen to the window, with the facts the OS reports at that moment. */
  datatype Event =
    | RunClicked(selected: Option<string>, fs: FileSystem)
    | OutputLine(line: string)
    | WorkerFinished(name: string)
    | StopRequested(waitOk: bool, procs: seq<Process>)
    | ConfigChosen(file: ConfigFile, loaded: (ScriptOptions, Option<string>))

  /** Dispatches one event; `serviceCommand` is the service helper's command line. */
  function Handle(app: App, serviceCommand: Command, ev: Event): Step {
    match ev
    case RunClicked(selected, fs) => RunExe(app, selected, fs)
    case OutputLine(line) => Step(OnOutput(app, line), [])
    case WorkerFinished(name) => Step(OnFinished(app, name), [])
    case StopRequested(waitOk, procs) => StopAndClose(app, waitOk, serviceCommand, procs)
    case ConfigChosen(file, loaded) => LoadConfigViaDialog(app, file, loaded)
  }

  /** The window state after a sequence of events. */
  function Replay(app: App, serviceCommand: Command, events: seq<Event>): App
    decreases |events|
  {
    if |events| == 0 then app else Replay(Handle(app, serviceCommand, events[0]).app, serviceCommand, events[1..])
  }

  /** Every handler keeps the slot consistent. */
  lemma HandlePreservesConsistency(app: App, serviceCommand: Command, ev: Event)
    requires Consistent(app)
    ensures Consistent(Handle(app, serviceCommand, ev).app)
  {
  }

  /** The slot stays consistent over any sequence of events. */
  lemma {:induction false} ReplayPreservesConsistency(app: App, serviceCommand: Command, events: seq<Event>)
    requires Consistent(app)
    ensures Consistent(Replay(app, serviceCommand, events))
    decreases |events|
  {
    if |events| > 0 {
      HandlePreservesConsistency(app, serviceCommand, events[0]);
      ReplayPreservesConsistency(Handle(app, serviceCommand, events[0]).app, serviceCommand, events[1..]);
    }
  }

  /**
   * In a consistent window, the completion of a captured worker always
   * reaches the reset branch: the slot is emptied and run is enabled again.
   */
  lemma CapturedFinishResets(app: App)
    requires Consistent(app) && app.worker.Some? && app.worker.value.captured
    ensures var r := OnFinished(app, app.worker.value.name);
            r.worker.None? && r.runEnabled && !r.stopEnabled
  {
  }
}

=== FILE: startup.dfy ===
/**
 * Start-up of the application (`main.py`): the administrator check, the
 * elevated relaunch, the single-instance lock and the order of the gates
 * before the main window is created. The operating system's answers are
 * inputs.
 */
module Startup {
  import opened Wrappers

  datatype OsName = Nt | Posix | OtherOs

  /** `ERROR_ALREADY_EXISTS` from the Windows error codes. */
  const ErrorAlreadyExists := 183

  /** Processes the start-up initializer terminates, and the service it stops. */
  const ProcessesToTerminate: seq<string> := ["winws.exe", "goodbyedpi.exe"]
  const ServiceToStop := "WinDivert"

  /**
   * What the operating system would report: the platform, the effective uid
   * (posix), the shell's admin answer or `None` when that call raises (nt),
   * the process's own argument vector and interpreter, the value
   * `ShellExecuteW` returns and the last error after creating the mutex.
   */
  datatype Host = Host(
    os: OsName,
    euid: int,
    shellIsAdmin: Option<int>,
    argv: seq<string>,
    executable: string,
    shellExecuteResult: int,
    lastError: int)

  /**
   * `is_admin`: on nt the shell's answer (non-zero means admin), false when
   * asking raises; on posix whether the effective uid is 0; false elsewhere.
   */
  function IsAdmin(host: Host): (b: bool)
    ensures host.os == Posix ==> (b <==> host.euid == 0)
    ensures host.os == Nt ==> (b <==> host.shellIsAdmin.Some? && host.shellIsAdmin.value != 0)
    ensures host.os == OtherOs ==> !b
  {
    match host.os
    case Nt => host.shellIsAdmin.Some? && host.shellIsAdmin.value != 0
    case Posix => host.euid == 0
    case OtherOs => false
  }

  /* ---------------- the relaunch parameter string ---------------- */

  function Quote(arg: string): string {
    "\"" + arg + "\""
  }

  /** Each argument wrapped in double quotes, the quoted arguments separated by single spaces; embedded quotes are not escaped. */
  function QuoteArgs(argv: seq<string>): (r: string)
    ensures |argv| == 0 <==> r == ""
    decreases |argv|
  {
    if |argv| == 0 then ""
    else if |argv| == 1 then Quote(argv[0])
    else Quote(argv[0]) + " " + QuoteArgs(argv[1..])
  }

  /**
   * Appending an argument appends its quoted form after one space, for any
   * arguments, quotes included: nothing is escaped or rewritten.
   */
  lemma {:induction false} QuoteArgsSnoc(argv: seq<string>, x: string)
    ensures QuoteArgs(argv + [x]) == if |argv| == 0 then Quote(x) else QuoteArgs(argv) + " " + Quote(x)
    decreases |argv|
  {
    if |argv| == 0 {
      assert argv + [x] == [x];
    } else if |argv| == 1 {
      assert (argv + [x])[1..] == [x];
    } else {
      assert (argv + [x])[1..] == argv[1..] + [x];
      QuoteArgsSnoc(argv[1..], x);
    }
  }

  /** The first position of `c` in `s`. */
  function IndexOf(s: string, c: char): (r: Option<nat>)
    ensures r.None? <==> c !in s
    ensures r.Some? ==> r.value < |s| && s[r.value] == c && c !in s[..r.value]
    decreases |s|
  {
    if |s| == 0 then None
    else if s[0] == c then Some(0)
    else match IndexOf(s[1..], c)
      case None => None
      case Some(j) =>
        assert s[..j + 1] == [s[0]] + s[1..][..j];
        Some(j + 1)
  }

  /** Splits `"arg"rest` into `arg` and `rest`, the argument running up to the next double quote. */
  function SplitHead(s: string): (r: Option<(string, string)>)
    ensures r.Some? ==> |r.value.1| < |s|
  {
    if |s| == 0 || s[0] != '"' then None
    else match IndexOf(s[1..], '"')
      case None => None
      case Some(j) => Some((s[1..j + 1], s[j + 2..]))
  }

  /**
   * Reads a parameter string of the shape `QuoteArgs` produces back into
   * the argument list: `"a" "b" ...`.
   */
  function UnquoteArgs(s: string): Option<seq<string>>
    decreases |s|
  {
    if |s| == 0 then Some([])
    else match SplitHead(s)
      case None => None
      case Some((arg, rest)) =>
        if |rest| == 0 then Some([arg])
        else if rest[0] != ' ' then None
        else match UnquoteArgs(rest[1..])
          case None => None
          case Some(tail) => Some([arg] + tail)
  }

  /** No argument contains a double quote. */
  predicate QuoteFree(argv: seq<string>) {
    forall i :: 0 <= i < |argv| ==> '"' !in argv[i]
  }

  /** The closing quote of the first argument is the first quote after the opening one. */
  lemma ClosingQuote(arg: string, rest: string)
    requires '"' !in arg
    ensures IndexOf(arg + "\"" + rest, '"') == Some(|arg|)
  {
    var s := arg + "\"" + rest;
    assert s[|arg|] == '"';
    assert s[..|arg|] == arg;
  }

  /** The head of a quoted quote-free argument followed by anything is that argument. */
  lemma SplitQuoted(arg: string, tail: string)
    requires '"' !in arg
    ensures SplitHead(Quote(arg) + tail) == Some((arg, tail))
  {
    var s := Quote(arg) + tail;
    assert s[1..] == arg + "\"" + tail;
    ClosingQuote(arg, tail);
    assert s[1..|arg| + 1] == arg;
    assert s[|arg| + 2..] == tail;
  }

  /** Quoting loses nothing as long as no argument contains a double quote. */
  lemma {:induction false} QuoteArgsRoundTrip(argv: seq<string>)
    requires QuoteFree(argv)
    ensures UnquoteArgs(QuoteArgs(argv)) == Some(argv)
    decreases |argv|
  {
    if |argv| == 1 {
      SplitQuoted(argv[0], "");
      assert Quote(argv[0]) + "" == Quote(argv[0]) == QuoteArgs(argv);
      assert argv == [argv[0]];
    } else if |argv| > 1 {
      assert QuoteFree(argv[1..]) by {
        assert forall i :: 0 <= i < |argv[1..]| ==> argv[1..][i] == argv[i + 1];
      }
      QuoteArgsRoundTrip(argv[1..]);
      var tail := " " + QuoteArgs(argv[1..]);
      SplitQuoted(argv[0], tail);
      assert tail[1..] == QuoteArgs(argv[1..]);
      assert QuoteArgs(argv) == Quote(argv[0]) + tail;
      assert [argv[0]] + argv[1..] == argv;
    }
  }

  /**
   * Embedded quotes are not escaped, so two different argument lists can
   * produce the same parameter string.
   */
  lemma EmbeddedQuotesCollide()
    ensures QuoteArgs(["a\" \"b"]) == QuoteArgs(["a", "b"])
    ensures ["a\" \"b"] != ["a", "b"]
  {
  }

  /* ---------------- elevation and the instance lock ---------------- */

  /** The shell verb that asks for elevation. */
  const RunAsVerb := "runas"

  /** A relaunch request: the shell verb, the program to start elevated, and its parameter string. */
  datatype Elevation = Elevation(verb: string, program: string, params: string)

  /** `run_as_admin`: what is handed to `ShellExecuteW` (if anything) and the exit status; it never returns normally. */
  datatype Relaunch = Relaunch(request: Option<Elevation>, exitCode: int)

  /**
   * `run_as_admin(argv)`: off nt, exit 1 without asking; on nt, request an
   * elevated start of the interpreter with the quoted arguments (`argv`
   * defaulting to the process's own), then exit 1 when the shell's answer
   * is 32 or less and 0 otherwise.
   */
  function RunAsAdmin(host: Host, argv: Option<seq<string>>): (r: Relaunch)
    ensures host.os != Nt ==> r == Relaunch(None, 1)
    ensures host.os == Nt ==> r.request == Some(Elevation(RunAsVerb, host.executable, QuoteArgs(argv.GetOr(host.argv))))
    ensures host.os == Nt ==> (r.exitCode == 1 <==> host.shellExecuteResult <= 32)
    ensures r.exitCode == 0 || r.exitCode == 1
  {
    if host.os != Nt then Relaunch(None, 1)
    else
      var params := QuoteArgs(argv.GetOr(host.argv));
      var code := if host.shellExecuteResult <= 32 then 1 else 0;
      Relaunch(Some(Elevation(RunAsVerb, host.executable, params)), code)
  }

  /** Whether this instance may go on, and whether closing the mutex handle was registered for exit. */
  datatype InstanceCheck = InstanceCheck(acquired: bool, cleanupRegistered: bool)

  /**
   * `ensure_single_instance`: on nt the mutex is created and the instance
   * must stop exactly when the last error is `ERROR_ALREADY_EXISTS`; the
   * handle's cleanup is registered only when it may go on. Off nt it always
   * may, and nothing is registered.
   */
  function EnsureSingleInstance(host: Host): (r: InstanceCheck)
    ensures !r.acquired <==> host.os == Nt && host.lastError == ErrorAlreadyExists
    ensures r.cleanupRegistered <==> host.os == Nt && r.acquired
  {
    if host.os != Nt then InstanceCheck(true, false)
    else if host.lastError == ErrorAlreadyExists then InstanceCheck(false, false)
    else InstanceCheck(true, true)
  }

  /* ---------------- the gates in `main` ---------------- */

  datatype BootEvent =
    | LoggingReady
    | ElevationRequested(request: Elevation)
    | InstanceChecked
    | CleanupRegistered
    | QtAppCreated
    | AlreadyRunningWarning
    | WindowCreated
    | StopOnQuitConnected
    | InitializerStarted(processes: seq<string>, service: string)
    | EventLoopFinished
    | InitializerJoined
    | Exited(code: int)

  /** `a` is recorded before `b`. */
  ghost predicate Before(events: seq<BootEvent>, a: BootEvent, b: BootEvent) {
    exists i, j :: 0 <= i < j < |events| && events[i] == a && events[j] == b
  }

  /**
   * `main`: logging first; a non-admin process asks for an elevated
   * relaunch and exits; then the single-instance check, whose failure shows
   * a warning and exits with status 0; only then the window, the stop hook
   * on quit, and the initializer for the fixed processes and service.
   */
  function Main(host: Host): (events: seq<BootEvent>)
    ensures |events| > 0 && events[0] == LoggingReady
    ensures !IsAdmin(host) ==>
              InstanceChecked !in events && WindowCreated !in events &&
              events[|events| - 1] == Exited(RunAsAdmin(host, None).exitCode)
    ensures IsAdmin(host) && !EnsureSingleInstance(host).acquired ==>
              WindowCreated !in events && events[|events| - 1] == Exited(0)
    ensures WindowCreated in events <==> IsAdmin(host) && EnsureSingleInstance(host).acquired
    ensures !IsAdmin(host) ==>
              forall k :: 0 <= k < |events| && events[k].ElevationRequested? ==>
                RunAsAdmin(host, None).request == Some(events[k].request)
    ensures IsAdmin(host) && !EnsureSingleInstance(host).acquired ==> AlreadyRunningWarning in events
    ensures forall k :: 0 <= k < |events| && (events[k].InitializerStarted? || events[k] == StopOnQuitConnected) ==>
              WindowCreated in events[..k]
  {
    if !IsAdmin(host) then
      var relaunch := RunAsAdmin(host, None);
      [LoggingReady]
      + (if relaunch.request.Some? then [ElevationRequested(relaunch.request.value)] else [])
      + [Exited(relaunch.exitCode)]
    else
      var check := EnsureSingleInstance(host);
      if !check.acquired then
        [LoggingReady, InstanceChecked, QtAppCreated, AlreadyRunningWarning, Exited(0)]
      else
        [LoggingReady, InstanceChecked]
        + (if check.cleanupRegistered then [CleanupRegistered] else [])
        + [QtAppCreated, WindowCreated, StopOnQuitConnected,
           InitializerStarted(ProcessesToTerminate, ServiceToStop), EventLoopFinished, InitializerJoined]
  }

  /**
   * When the window is created, both gates have passed and nothing exits
   * early: the instance check comes before the window, the window before
   * the stop hook, and the hook before the initializer, which is given
   * exactly `winws.exe`, `goodbyedpi.exe` and the `WinDivert` service.
   */
  lemma MainOrder(host: Host)
    requires WindowCreated in Main(host)
    ensures var events := Main(host);
            && Before(events, InstanceChecked, WindowCreated)
            && Before(events, WindowCreated, StopOnQuitConnected)
            && Before(events, StopOnQuitConnected, InitializerStarted(ProcessesToTerminate, ServiceToStop))
            && (forall k :: 0 <= k < |events| && events[k].InitializerStarted? ==>
                  events[k] == InitializerStarted(["winws.exe", "goodbyedpi.exe"], "WinDivert"))
            && (forall k :: 0 <= k < |events| ==> !events[k].Exited? && !events[k].ElevationRequested?)
  {
    var events := Main(host);
    var c := if EnsureSingleInstance(host).cleanupRegistered then 1 else 0;
    assert events[1] == InstanceChecked;
    assert events[3 + c] == WindowCreated;
    assert events[4 + c] == StopOnQuitConnected;
    assert events[5 + c] == InitializerStarted(ProcessesToTerminate, ServiceToStop);
  }

  /**
   * `main` in terms of what the host reports: the window is created exactly
   * for root on posix, or on nt for a shell-confirmed administrator whose
   * mutex did not already exist; the mutex cleanup is registered only in
   * that nt case; an elevated relaunch is requested only on nt; a refused
   * start exits with status 1 exactly when it is off nt or the shell
   * refused the relaunch.
   */
  lemma MainOnHostFacts(host: Host)
    ensures var events := Main(host);
            var ntAdmin := host.os == Nt && host.shellIsAdmin.Some? && host.shellIsAdmin.value != 0;
            && (WindowCreated in events <==>
                  (host.os == Posix && host.euid == 0) || (ntAdmin && host.lastError != ErrorAlreadyExists))
            && (CleanupRegistered in events <==> ntAdmin && host.lastError != ErrorAlreadyExists)
            && ((exists k :: 0 <= k < |events| && events[k].ElevationRequested?) <==> host.os == Nt && !ntAdmin)
            && (Exited(1) in events <==>
                  !IsAdmin(host) && (host.os != Nt || host.shellExecuteResult <= 32))
  {
    var events := Main(host);
    if !IsAdmin(host) && host.os == Nt {
      assert events[1].ElevationRequested?;
    }
  }
}

=== FILE: text.dfy ===
/**
 * Character and string helpers used by the output filter and by process
 * matching: ASCII lower-casing, substring containment (Python's `in` on
 * strings) and case-insensitive equality (`a.lower() == b.lower()`).
 */
module Text {

  /** Lower-cases 'A'..'Z'; every other character is left alone. */
  function LowerChar(c: char): char {
    if 'A' <= c <= 'Z' then (c as int + 32) as char else c
  }

  /** Python's `str.lower()`, restricted to ASCII letters. */
  function Lower(s: string): (r: string)
    ensures |r| == |s|
    ensures forall i :: 0 <= i < |s| ==> r[i] == LowerChar(s[i])
  {
    seq(|s|, i requires 0 <= i < |s| => LowerChar(s[i]))
  }

  /** `p in s` for Python strings: `p` occurs somewhere in `s` (the empty string occurs everywhere). */
  predicate Contains(s: string, p: string)
    decreases |s|
  {
    p <= s || (|s| > 0 && Contains(s[1..], p))
  }

  /** Reference definition of an occurrence: `p` sits in `s` starting at index `i`. */
  ghost predicate OccursAt(s: string, p: string, i: int) {
    0 <= i && i + |p| <= |s| && s[i..i + |p|] == p
  }

  /** The scanning definition of `Contains` agrees with the positional one, in both directions. */
  lemma {:induction false} ContainsIff(s: string, p: string)
    ensures Contains(s, p) <==> exists i :: OccursAt(s, p, i)
    decreases |s|
  {
    if p <= s {
      assert OccursAt(s, p, 0);
    } else if |s| > 0 {
      ContainsIff(s[1..], p);
      if exists i :: OccursAt(s, p, i) {
        var i :| OccursAt(s, p, i);
        assert s[1..][i - 1..i - 1 + |p|] == s[i..i + |p|];
        assert OccursAt(s[1..], p, i - 1);
      }
      if exists i :: OccursAt(s[1..], p, i) {
        var i :| OccursAt(s[1..], p, i);
        assert s[1..][i..i + |p|] == s[i + 1..i + 1 + |p|];
        assert OccursAt(s, p, i + 1);
      }
    }
  }

  /** Case-insensitive whole-string equality, `a.lower() == b.lower()`. */
  predicate SameIgnoringCase(a: string, b: string) {
    Lower(a) == Lower(b)
  }

  /**
   * Case-insensitive equality is character-by-character: equal lengths and
   * equal lower-cased characters. In particular a longer or shorter name,
   * even one containing the other, never matches.
   */
  lemma SameIgnoringCaseIff(a: string, b: string)
    ensures SameIgnoringCase(a, b) <==>
              |a| == |b| && forall i :: 0 <= i < |a| ==> LowerChar(a[i]) == LowerChar(b[i])
  {
  }
}

=== FILE: wrappers.dfy ===
/** The `Option` and `Result` datatypes shared by the other modules. */
module Wrappers {

  /** Python's `None`-or-value. */
  datatype Option<+T> = None | Some(value: T) {

    /** The wrapped value, or `default` when there is none. */
    function GetOr(default: T): T {
      match this
      case Some(v) => v
      case None => default
    }
  }

  /** A value, or the reason it could not be produced (a caught exception). */
  datatype Result<+R, +E> = Success(value: R) | Failure(error: E)
}
